=== FILE: README.md ===
# bsSwitch binding model

A Dafny model of the `bsSwitch` AngularJS attribute directive, which binds an
`ngModel` controller to a bootstrap-switch toggle widget. The model covers:

- the attribute resolver table (`getSwitchAttrValue` with
  `getBooleanFromStringDefTrue`, `getBooleanFromString` and
  `getValueOrUndefined`);
- the true-value resolution (`getTrueValue`) in checkbox and radio mode;
- the per-binding state machine: the `isInit` gate, the widget-call log, and
  the controller's model and view values. Each registered callback is one
  step function: the model watch, `initMaybe`, `setSwitchParamMaybe` behind
  the `bindings`-table observers, the `switchActive` observer and its
  deferred `setActive`, the radio `change` handler, the checkbox
  `switchChange` handler, and the `$destroy` hook.

JavaScript values form a datatype, `JsVal`, with an explicit `Truthy`.
Strict equality `===` is datatype equality. An object is known only by its
reference (`Obj(id)`).

The widget is the sequence of calls made on it. These are `Construct`,
`SetOption`, `SetState` and `Destroy`. `ReportedState` reads off that log the
last on/off state pushed to the widget.

The scope evaluator is a parameter of the environment, `Env.eval`. It stands
for both `$parse(e)(scope)` and `scope.$eval(e)`. `$setViewValue` runs the
parser the framework installs for the control: a radio keeps the value, a
checkbox maps checked to the evaluated `ngTrueValue` (true when absent) and
unchecked to false (`Attributes.CheckboxParse`). `Run` folds any sequence of
events over a binding. Each event is seen together with the environment of
its moment.

Files:

- `js_values.dfy`: values, truthiness, `||`, `!`, string conversion.
- `attributes.dfy`: the resolver table and `getTrueValue`.
- `widget.dfy`: the widget options and the call log.
- `directive.dfy`: the binding state and one step function per callback.
- `properties.dfy`: properties that relate several calls. These cover the
  gate over any run of events, how the construction bundle agrees with later
  pushes, the initial state, and the view-to-model round trips.

Behaviours of the code worth noting:

- The model watch pushes the state with `skip` set to `false`
  (`bootstrapSwitch('state', v, false)`). The model records that argument.
  It does not claim the push is silent.
- Nothing stops calls after `$destroy`. A `$timeout` callback of a
  deactivation whose timer fires after the scope is destroyed still pushes
  `disabled` to the destroyed widget (see `Properties.PushAfterDestroy`).
- `setActive` re-reads `switchActive` when it runs. A deactivation that is
  overtaken by a re-activation before its timer fires is lost
  (`Properties.OvertakenDeactivationIsLost`).
- `getTrueValue` replaces a non-string `ngTrueValue` by `true`, but the
  framework's checkbox parser still stores the evaluated `ngTrueValue`. With
  `ng-true-value="1"`, switching on leads the watch to push state off
  (`Properties.NonStringTrueValueTurnsOff`), and a model of 1 is overwritten
  with false at initialisation (`Properties.NonStringTrueValueResetsModel`).
- The `switchIcon` markup uses single quotes: `<span class='…'></span>`.
- The initial `readonly` option is `!getSwitchAttrValue('switchReadonly')`.
  That equals `getBooleanFromString(attr)`. A later observed push sends
  `getSwitchAttrValue('switchReadonly')` without the negation. The two are
  always opposite booleans, and the model keeps that quirk
  (`Properties.ReadonlyPushContradictsInit`).

## Model

| member | source | states |
|---|---|---|
| JsValues.FalsyExactly | src/directives/bsSwitch.js:41 | a value is falsy exactly when it is undefined, null, false, 0 or the empty string |
| JsValues.Or | src/directives/bsSwitch.js:17 | the JavaScript or-operator yields one of its operands, is truthy iff either operand is, and yields `a` whenever `a` is truthy and `b` otherwise |
| Attributes.BooleanFromStringDefTrue | src/directives/bsSwitch.js:40-42 | the default-true parse holds exactly for boolean true, the string 'true' and the five falsy values; 'false' and false give false |
| Attributes.ValueOrUndefined | src/directives/bsSwitch.js:50-52 | a truthy value passes through unchanged; every falsy value becomes undefined |
| Attributes.BooleanFromString | src/directives/bsSwitch.js:31-33 | true only when the attribute is set and evaluates to exactly true; a string, number or object result (even 'true' or 1) gives false |
| Attributes.SwitchAttrValue | src/directives/bsSwitch.js:61-86 | radioOff, readonly, active, animate and inverse always resolve to a boolean; label and wrapper always to something truthy, the attribute itself when set; icon to a string iff the attribute is truthy, else undefined; the other attributes to themselves when truthy and undefined otherwise |
| Attributes.ResolverValues | src/directives/bsSwitch.js:61-86 | radioOff and animate are the default-true reading of the attribute and inverse its strict reading; a falsy label, wrapper or pass-through attribute gives '&nbsp;', 'wrapper' and undefined; a truthy icon gives `<span class='…'></span>` around the attribute's string form |
| Attributes.AbsentAttributeDefaults | src/directives/bsSwitch.js:61-86 | with no switch attribute set: radioOff and animate resolve to true; switchActive resolves to false, the value both the construction and setActive give disabled (see ObservedPushMatchesInit); switchReadonly resolves to true, the value a readonly observation pushes (the constructed readonly is its negation, see ReadonlyPushContradictsInit); inverse resolves to false; label to '&nbsp;', wrapper to 'wrapper', icon and every other attribute to undefined |
| Attributes.TrueValue | src/directives/bsSwitch.js:15-24 | in checkbox mode the result is the evaluated ngTrueValue when that is a string and true otherwise; in radio mode it is always truthy: the value attribute if truthy, else the evaluated ngValue if truthy, else true |
| Attributes.IconMarkup | src/directives/bsSwitch.js:76 | the markup is `<span class='`, then the class name unchanged, then `'></span>` |
| Directive.Link | src/directives/bsSwitch.js:9 | at link time the gate is closed, nothing is constructed or written, the controller is as given, and the radio listener is chosen iff the control is a radio |
| Directive.Bindings | src/directives/bsSwitch.js:174-189 | every switch attribute except switchActive drives an option, and none drives state or disabled |
| Directive.SetSwitchParamMaybe | src/directives/bsSwitch.js:97-103 | before initialisation the binding is left exactly as it was; afterwards one option call is appended and nothing else changes |
| Directive.SetActive | src/directives/bsSwitch.js:105-107 | before initialisation nothing changes; afterwards one `disabled` push is appended, the negation of the default-true reading of switchActive at the moment it runs |
| Directive.InitialOptionValues | src/directives/bsSwitch.js:118-134 | the constructed state is the initial state; readonly is getBooleanFromString of the attribute; disabled is the negation of the default-true reading of switchActive; labelText is the label when set, otherwise a string iff an icon is set (the icon markup of ResolverValues) and undefined otherwise |
| Directive.InitMaybe | src/directives/bsSwitch.js:112-141 | the gate is open afterwards; a first call appends one construction whose state is modelValue === trueValue and writes the model value back (radio) or that boolean (checkbox), which becomes the view value, so a radio's model and view agree afterwards; a later call changes nothing |
| Directive.OnModelChange | src/directives/bsSwitch.js:166-171 | the watch always runs initMaybe; a defined new value then appends a state push of newValue === trueValue; an undefined one pushes nothing |
| Directive.OnAttrObserved | src/directives/bsSwitch.js:191-202 | switchActive is ignored; for any other attribute nothing happens before initialisation, and afterwards exactly one push of the attribute's resolved value to its bindings-table option is appended, with gate, controller and writes unchanged |
| Directive.OnActiveObserved | src/directives/bsSwitch.js:148-159 | activation runs setActive at once, which for the attribute's current value on an initialised switch appends exactly a `disabled` false push; deactivation changes nothing until the deferred callback runs; the gate, controller and writes are untouched |
| Directive.OnRadioChange | src/directives/bsSwitch.js:211-224 | a view write happens iff model and view agree, the DOM flag differs from the widget state, and the radio is checked or the view value is the true value; the write is the true value when checked and undefined otherwise; the widget log and gate are untouched |
| Directive.OnSwitchChange | src/directives/bsSwitch.js:227-230 | exactly one view write, equal to the DOM checked boolean |
| Directive.OnDestroy | src/directives/bsSwitch.js:241-243 | exactly one destroy call is appended, and the gate and controller are untouched |
| Directive.Run | src/directives/bsSwitch.js:112-116 | over any run of events an open gate stays open and the widget is not constructed again |
| Properties.RunKeepsInv | src/directives/bsSwitch.js:97-141 | over any run the widget is constructed once exactly when the gate is open, and every option or state push comes after that construction |
| Properties.RunOpensGate | src/directives/bsSwitch.js:166-167 | after any run the gate is open iff it was open before or some model-watch notification fired |
| Properties.ConstructedOnce | src/directives/bsSwitch.js:112-141 | from link time, any run constructs the widget exactly once if the model watch ever fired and never otherwise, with no push before the construction |
| Properties.InitMaybeIdempotent | src/directives/bsSwitch.js:112-114 | a second initMaybe is a no-op whatever the environment |
| Properties.ObservedPushMatchesInit | src/directives/bsSwitch.js:118-134 | for every bindings-table attribute except readonly, label and icon, the value a later observation pushes equals the constructed option; setActive agrees with the constructed disabled |
| Properties.ReadonlyPushContradictsInit | src/directives/bsSwitch.js:120 | a readonly observation on an initialised switch pushes to the readonly option; the constructed readonly is getBooleanFromString of the attribute and the pushed value its negation, so the two always differ |
| Properties.LabelPushMatchesInit | src/directives/bsSwitch.js:183-184 | on an initialised switch, label and icon observations both push to labelText; a label observation repeats the constructed labelText iff a label is set; an icon observation repeats it whenever no label is set |
| Properties.FirstInitMaybe | src/directives/bsSwitch.js:114-139 | the first initMaybe after link makes exactly one construction, with state modelValue === trueValue, and exactly one view write |
| Properties.FirstWatchInitialises | src/directives/bsSwitch.js:115-139 | the first watch after link constructs once, shows modelValue === trueValue (or newValue === trueValue when defined), and writes back one view value |
| Properties.InitialStateExamples | src/directives/bsSwitch.js:115-122 | a checkbox whose model holds the string its ngTrueValue evaluates to starts on; a radio with value "x" and model "x" starts on |
| Properties.WatchSetsState | src/directives/bsSwitch.js:168-170 | after initialisation a defined model value makes the last state pushed to the widget whether it is the true value, without a new construction |
| Attributes.CheckboxParseMatchesTrueValue | src/directives/bsSwitch.js:15-24 | in checkbox mode the framework parser's checked value is the directive's true value iff ngTrueValue is absent, a string, or true; an unchecked box never parses to the true value |
| Properties.CheckboxRoundTrip | src/directives/bsSwitch.js:227-230 | for an ngTrueValue that is absent, a string or true, a switchChange followed by the watch of the resulting model makes the last state pushed to the widget the DOM flag |
| Properties.NonStringTrueValueTurnsOff | src/directives/bsSwitch.js:19-22 | for any other defined ngTrueValue (such as 1), switching on stores that value as the model and the watch then pushes state off |
| Properties.NonStringTrueValueResetsModel | src/directives/bsSwitch.js:115-139 | for such an ngTrueValue, a model already holding it is constructed off and overwritten with false |
| Properties.RadioSelectRoundTrip | src/directives/bsSwitch.js:216-218 | selecting a radio writes the true value, which becomes the model, and the watch then shows the switch on |
| Properties.RadioDeselect | src/directives/bsSwitch.js:219-222 | a genuine deselect clears the view value iff it held the true value, otherwise leaves the binding untouched; a cleared model causes no state push |
| Properties.RadioFilterDiscards | src/directives/bsSwitch.js:213 | a change event with model and view out of step, or with the DOM flag equal to the widget state, changes nothing |
| Properties.DeferredActivateRereads | src/directives/bsSwitch.js:150-153 | the deferred setActive disables the switch iff switchActive reads inactive when the timer fires, and enables it otherwise |
| Properties.OvertakenDeactivationIsLost | src/directives/bsSwitch.js:148-159 | a deactivation followed by a re-activation before the timer fires leaves two `disabled` false pushes and no disabling |
| Properties.PushAfterDestroy | src/directives/bsSwitch.js:150-153 | after destroy, a deferred setActive still appends a `disabled` push to the destroyed widget (the model-change clause holds of the model's event set only; see Left out) |

## Left out

- Expression evaluation (`$parse`, `scope.$eval`) is a foreign evaluator. It
  is the parameter `Env.eval`. An absent expression evaluates to undefined.
- Directive.SetViewValue: runs the parser on every call. Since version 1.3,
  AngularJS skips the parse when the view value equals the last committed
  one. The model does not track that value. For instance, a checkbox whose
  model is undefined keeps it undefined after `initMaybe` writes false,
  while the model sets it to false.
- Of the `ngModel` parser pipeline, only the parser the framework installs
  for a checkbox or radio input is modelled. Parsers added by the
  application, `ng-false-value` (the unchecked value is always false),
  formatters and validators are not. `ngTrueValue` is evaluated at each
  parse rather than once at link time. A framework-side change to the
  controller is the `ControllerSet` event.
- The bootstrap-switch widget and jQuery are a foreign library. They appear
  only as the call log. `ReportedState` is the state that log implies. The
  widget's own reaction to a user click is an input of the view handlers.
- DOM event wiring (`element.on`, `$(e.target)`) is plumbing. Each event is a
  step taking the DOM checked flag and the widget state as inputs.
- The `$timeout` deferral of deactivation is event-loop scheduling. The timer
  callback is the separate `DeferredActivate` event, which may arrive after
  any other event, including `ScopeDestroyed`. How long the timer takes is
  not modelled.
- `Run` accepts every kind of event after `ScopeDestroyed`. AngularJS stops
  the watch and the observers of a destroyed scope, so only the timer
  callback can really arrive then; lemmas about later model changes or
  observations describe the model's wider event set.
- The deep equality of `$watch(..., true)` is not modelled, nor when the
  framework decides to notify. The watch's new value is an input of the
  event.
- `$observe` registration order is not modelled. The nested registration in
  `observeProp` adds one more inner observer each time the outer one fires;
  the model does not count those observers. Each firing of any inner
  observer is one `AttrObserved` event.
- The element-form directive (template `<input bs-switch>`) is declarative
  markup with no logic.
- NaN, negative zero and custom `toString` methods are not modelled. Numbers
  are integers. Every object converts to `[object Object]` in the icon markup.

=== FILE: attributes.dfy ===
/** Attribute normalisation and true-value resolution of the `bsSwitch`
    directive: how a raw attribute becomes the value handed to the widget. */
module Attributes {
  import opened JsValues

  /** The `switch-*` attributes the directive recognises. */
  datatype SwitchAttr =
    | SwitchRadioOff
    | SwitchReadonly
    | SwitchActive
    | SwitchAnimate
    | SwitchLabel
    | SwitchIcon
    | SwitchWrapper
    | SwitchInverse
    | SwitchOnText
    | SwitchOffText
    | SwitchOnColor
    | SwitchOffColor
    | SwitchSize
    | SwitchHandleWidth
    | SwitchLabelWidth

  /** Attributes with no entry in the resolver table: value or undefined. */
  const PassThrough: set<SwitchAttr> :=
    {SwitchOnText, SwitchOffText, SwitchOnColor, SwitchOffColor,
     SwitchSize, SwitchHandleWidth, SwitchLabelWidth}

  /** The element's attributes at one moment. An absent attribute reads as
      `Undef`; `ngValue` and `ngTrueValue` are expressions still to evaluate. */
  datatype Attrs = Attrs(
    switches: map<SwitchAttr, JsVal>,
    inputType: JsVal,
    value: JsVal,
    ngValue: JsVal,
    ngTrueValue: JsVal)

  /** What the directive can observe when one of its callbacks runs: the
      attributes and the scope's expression evaluator (`$parse(e)(scope)`,
      which is also `scope.$eval(e)`). */
  datatype Env = Env(
    attrs: Attrs,
    eval: JsVal -> JsVal)

  function Raw(attrs: Attrs, a: SwitchAttr): JsVal {
    if a in attrs.switches then attrs.switches[a] else Undef
  }

  /** Evaluating an absent expression yields undefined; anything else is
      up to the scope's evaluator. */
  function Evaluate(env: Env, expr: JsVal): JsVal {
    if expr == Undef then Undef else env.eval(expr)
  }

  /** The control is a radio button (`attrs.type === 'radio'`). */
  predicate IsRadio(attrs: Attrs) {
    attrs.inputType == Str("radio")
  }

  /** `getBooleanFromStringDefTrue`: true for boolean true, the string
      'true' and every falsy value; false for every other truthy value. */
  function BooleanFromStringDefTrue(v: JsVal): (r: bool)
    ensures r <==> v == Bool(true) || v == Str("true") || v in Falsy
    ensures v == Str("false") || v == Bool(false) ==> r == (v == Bool(false))
  {
    v == Bool(true) || v == Str("true") || !Truthy(v)
  }

  /** `getBooleanFromString`: strict comparison with `true`, so a truthy
      result such as the string 'true' or the number 1 still gives false. */
  function BooleanFromString(env: Env, v: JsVal): (r: bool)
    ensures r ==> v != Undef && Truthy(Evaluate(env, v))
    ensures Evaluate(env, v).Str? || Evaluate(env, v).Num? || Evaluate(env, v).Obj? ==> !r
    ensures Evaluate(env, v).Bool? ==> r == Evaluate(env, v).b
  {
    Evaluate(env, v) == Bool(true)
  }

  /** `getValueOrUndefined`: a truthy value passes through, a falsy one
      becomes undefined. */
  function ValueOrUndefined(v: JsVal): (r: JsVal)
    ensures r == v || r == Undef
    ensures Truthy(r) <==> Truthy(v)
    ensures !Truthy(v) ==> r == Undef
  {
    if Truthy(v) then v else Undef
  }

  /** The markup `switchIcon` produces for a class name. */
  function IconMarkup(cls: string): (m: string)
    ensures |m| == |cls| + 22
    ensures m[..13] == "<span class='" && m[13..|m| - 9] == cls && m[|m| - 9..] == "'></span>"
  {
    var m := "<span class='" + cls + "'></span>";
    assert m[..13] == "<span class='";
    assert m[13..|m| - 9] == cls;
    assert m[|m| - 9..] == "'></span>";
    m
  }

  /** The five attributes the table resolves to booleans. */
  const BooleanValued: set<SwitchAttr> :=
    {SwitchRadioOff, SwitchReadonly, SwitchActive, SwitchAnimate, SwitchInverse}

  /** `getSwitchAttrValue`: the resolver table applied to the raw attribute.
      The boolean attributes always resolve to a boolean; label and wrapper
      always to something truthy, the attribute itself when it is set; the
      icon to markup exactly when it is set; every other attribute to itself
      when truthy and to undefined otherwise. */
  function SwitchAttrValue(env: Env, a: SwitchAttr): (r: JsVal)
    ensures a in BooleanValued ==> r.Bool?
    ensures a == SwitchLabel || a == SwitchWrapper ==>
              Truthy(r) && (Truthy(Raw(env.attrs, a)) ==> r == Raw(env.attrs, a))
    ensures a == SwitchIcon ==> (r.Str? <==> Truthy(Raw(env.attrs, a))) && (r.Str? || r == Undef)
    ensures a in PassThrough ==> r == Raw(env.attrs, a) || r == Undef
    ensures a in PassThrough ==> (Truthy(r) <==> Truthy(Raw(env.attrs, a)))
  {
    var v := Raw(env.attrs, a);
    match a
    case SwitchRadioOff => Bool(BooleanFromStringDefTrue(v))
    case SwitchReadonly => Bool(!BooleanFromString(env, v))
    case SwitchActive => Bool(!BooleanFromStringDefTrue(v))
    case SwitchAnimate => Bool(BooleanFromStringDefTrue(v))
    case SwitchLabel => if Truthy(v) then v else Str("&nbsp;")
    case SwitchIcon => if Truthy(v) then Str(IconMarkup(ToJsString(v))) else Undef
    case SwitchWrapper => Or(v, Str("wrapper"))
    case SwitchInverse => Bool(BooleanFromString(env, v))
    case _ => ValueOrUndefined(v)
  }

  /** The value each resolver gives: radio-all-off and animate are the
      default-true reading of the attribute, inverse its strict reading;
      a falsy label, wrapper or pass-through attribute falls back to
      '&nbsp;', 'wrapper' and undefined; a truthy icon becomes span markup
      around the attribute's string form. */
  lemma ResolverValues(env: Env)
    ensures SwitchAttrValue(env, SwitchRadioOff) == Bool(BooleanFromStringDefTrue(Raw(env.attrs, SwitchRadioOff)))
    ensures SwitchAttrValue(env, SwitchAnimate) == Bool(BooleanFromStringDefTrue(Raw(env.attrs, SwitchAnimate)))
    ensures SwitchAttrValue(env, SwitchInverse) == Bool(BooleanFromString(env, Raw(env.attrs, SwitchInverse)))
    ensures !Truthy(Raw(env.attrs, SwitchLabel)) ==> SwitchAttrValue(env, SwitchLabel) == Str("&nbsp;")
    ensures !Truthy(Raw(env.attrs, SwitchWrapper)) ==> SwitchAttrValue(env, SwitchWrapper) == Str("wrapper")
    ensures forall a :: a in PassThrough && !Truthy(Raw(env.attrs, a)) ==> SwitchAttrValue(env, a) == Undef
    ensures Truthy(Raw(env.attrs, SwitchIcon)) ==>
              SwitchAttrValue(env, SwitchIcon) == Str("<span class='" + ToJsString(Raw(env.attrs, SwitchIcon)) + "'></span>")
  {
  }

  /** With no `switch-*` attribute set, the table gives: radio-all-off and
      animate true, active false (the value `disabled` receives), readonly
      true and inverse false as pushed values, label a non-breaking space,
      wrapper 'wrapper', and everything else undefined. */
  lemma AbsentAttributeDefaults(env: Env)
    requires env.attrs.switches == map[]
    ensures SwitchAttrValue(env, SwitchRadioOff) == Bool(true)
    ensures SwitchAttrValue(env, SwitchAnimate) == Bool(true)
    ensures SwitchAttrValue(env, SwitchActive) == Bool(false)
    ensures SwitchAttrValue(env, SwitchReadonly) == Bool(true)
    ensures SwitchAttrValue(env, SwitchInverse) == Bool(false)
    ensures SwitchAttrValue(env, SwitchLabel) == Str("&nbsp;")
    ensures SwitchAttrValue(env, SwitchWrapper) == Str("wrapper")
    ensures SwitchAttrValue(env, SwitchIcon) == Undef
    ensures forall a :: a in PassThrough ==> SwitchAttrValue(env, a) == Undef
  {
  }

  /** `getTrueValue`: the model value that means "on". */
  function TrueValue(env: Env): (r: JsVal)
    ensures !IsRadio(env.attrs) ==> r.Str? || r == Bool(true)
    ensures !IsRadio(env.attrs) && Evaluate(env, env.attrs.ngTrueValue).Str? ==>
              r == Evaluate(env, env.attrs.ngTrueValue)
    ensures !IsRadio(env.attrs) && !Evaluate(env, env.attrs.ngTrueValue).Str? ==> r == Bool(true)
    ensures IsRadio(env.attrs) ==> Truthy(r)
    ensures IsRadio(env.attrs) ==>
              r == env.attrs.value || r == Evaluate(env, env.attrs.ngValue) || r == Bool(true)
    ensures IsRadio(env.attrs) && Truthy(env.attrs.value) ==> r == env.attrs.value
    ensures (IsRadio(env.attrs) && !Truthy(env.attrs.value) && Truthy(Evaluate(env, env.attrs.ngValue)))
              ==> r == Evaluate(env, env.attrs.ngValue)
  {
    if IsRadio(env.attrs) then
      Or(Or(env.attrs.value, Evaluate(env, env.attrs.ngValue)), Bool(true))
    else
      var t := Evaluate(env, env.attrs.ngTrueValue);
      if t.Str? then t else Bool(true)
  }

  /** The framework's checkbox parser, which `$setViewValue` runs on a
      checkbox's boolean view value: a checked box becomes the evaluated
      `ngTrueValue` (true when that attribute is absent), an unchecked one
      becomes false. */
  function CheckboxParse(env: Env, checked: JsVal): JsVal {
    if !Truthy(checked) then Bool(false)
    else if env.attrs.ngTrueValue == Undef then Bool(true)
    else Evaluate(env, env.attrs.ngTrueValue)
  }

  /** In checkbox mode the parser's "checked" value is the value the
      directive treats as "on" exactly when `ngTrueValue` is absent, is a
      string, or evaluates to true; an unchecked box never parses to "on". */
  lemma CheckboxParseMatchesTrueValue(env: Env)
    requires !IsRadio(env.attrs)
    ensures CheckboxParse(env, Bool(true)) == TrueValue(env) <==>
              env.attrs.ngTrueValue == Undef
              || Evaluate(env, env.attrs.ngTrueValue).Str?
              || Evaluate(env, env.attrs.ngTrueValue) == Bool(true)
    ensures CheckboxParse(env, Bool(false)) != TrueValue(env)
  {
  }
}

=== FILE: directive.dfy ===
/** One `bs-switch` binding as a state machine: every callback the directive
    registers is a step function from the binding's state to its next state.
    The widget is the log of calls made on it; the controller's view-value
    writes are logged as well. */
module Directive {
  import opened JsValues
  import opened Attributes
  import opened Widget

  /** The `ngModel` controller's two values. */
  datatype Controller = Controller(modelValue: JsVal, viewValue: JsVal)

  /** The state of one binding: the `isInit` gate, which view listener link
      time installed, the controller, the widget call log and the view-value
      writes in order. */
  datatype Binding = Binding(
    isInit: bool,
    radioListener: bool,
    ctrl: Controller,
    log: seq<Call>,
    writes: seq<JsVal>)

  /** Link time: nothing constructed, nothing written; the view listener
      is chosen once, by the control's type. */
  function Link(attrs: Attrs, ctrl: Controller): (b: Binding)
    ensures !b.isInit && b.log == [] && b.writes == [] && b.ctrl == ctrl
    ensures b.radioListener <==> IsRadio(attrs)
  {
    Binding(false, IsRadio(attrs), ctrl, [], [])
  }

  /** `controller.$setViewValue(v)`: the view value becomes `v` and the
      parser the framework installed for the control turns it into the new
      model value: a radio keeps the value as it is, a checkbox maps it
      through `CheckboxParse`. */
  function SetViewValue(b: Binding, env: Env, v: JsVal): (r: Binding)
    ensures r.ctrl.viewValue == v
    ensures b.radioListener ==> r.ctrl.modelValue == v
    ensures !b.radioListener && !Truthy(v) ==> r.ctrl.modelValue == Bool(false)
    ensures !b.radioListener && Truthy(v) ==> r.ctrl.modelValue == CheckboxParse(env, Bool(true))
    ensures r.writes == b.writes + [v]
    ensures r.isInit == b.isInit && r.radioListener == b.radioListener && r.log == b.log
  {
    var model := if b.radioListener then v else CheckboxParse(env, v);
    b.(ctrl := Controller(model, v), writes := b.writes + [v])
  }

  /** The `bindings` table: the widget option an observed attribute drives.
      `switchActive` is not in it; it has an observer of its own. */
  function Bindings(a: SwitchAttr): (o: Option<OptionName>)
    ensures o.None? <==> a == SwitchActive
    ensures o != Some(State) && o != Some(Disabled)
    ensures a in PassThrough ==> o.Some?
  {
    match a
    case SwitchRadioOff => Some(RadioAllOff)
    case SwitchReadonly => Some(Readonly)
    case SwitchOnText => Some(OnText)
    case SwitchOffText => Some(OffText)
    case SwitchOnColor => Some(OnColor)
    case SwitchOffColor => Some(OffColor)
    case SwitchAnimate => Some(Animate)
    case SwitchSize => Some(Size)
    case SwitchLabel => Some(LabelText)
    case SwitchIcon => Some(LabelText)
    case SwitchWrapper => Some(WrapperClass)
    case SwitchHandleWidth => Some(HandleWidth)
    case SwitchLabelWidth => Some(LabelWidth)
    case SwitchInverse => Some(Inverse)
    case SwitchActive => None
  }

  /** `setSwitchParamMaybe`: before initialisation the push is dropped and
      the binding is untouched; afterwards exactly one option call is made
      and nothing else changes. */
  function SetSwitchParamMaybe(b: Binding, env: Env, option: OptionName, a: SwitchAttr): (r: Binding)
    ensures !b.isInit ==> r == b
    ensures b.isInit ==> r.log == b.log + [SetOption(option, SwitchAttrValue(env, a))]
    ensures r.isInit == b.isInit && r.radioListener == b.radioListener
    ensures r.ctrl == b.ctrl && r.writes == b.writes
  {
    if !b.isInit then b
    else b.(log := b.log + [SetOption(option, SwitchAttrValue(env, a))])
  }

  /** `setActive`: push the `disabled` option from `switchActive`. The
      attribute is read when the push happens, so `disabled` is the negation
      of its current default-true reading, whatever value triggered the call. */
  function SetActive(b: Binding, env: Env): (r: Binding)
    ensures !b.isInit ==> r == b
    ensures b.isInit ==>
              r.log == b.log + [SetOption(Disabled, Bool(!BooleanFromStringDefTrue(Raw(env.attrs, SwitchActive))))]
    ensures r.isInit == b.isInit && r.radioListener == b.radioListener
    ensures r.ctrl == b.ctrl && r.writes == b.writes
  {
    SetSwitchParamMaybe(b, env, Disabled, SwitchActive)
  }

  /** The value the construction bundle gives option `n`. */
  function InitialOption(env: Env, state: bool, n: OptionName): JsVal {
    match n
    case RadioAllOff => SwitchAttrValue(env, SwitchRadioOff)
    case Readonly => Not(SwitchAttrValue(env, SwitchReadonly))
    case Disabled => SwitchAttrValue(env, SwitchActive)
    case State => Bool(state)
    case OnText => SwitchAttrValue(env, SwitchOnText)
    case OffText => SwitchAttrValue(env, SwitchOffText)
    case OnColor => SwitchAttrValue(env, SwitchOnColor)
    case OffColor => SwitchAttrValue(env, SwitchOffColor)
    case Animate => SwitchAttrValue(env, SwitchAnimate)
    case Size => SwitchAttrValue(env, SwitchSize)
    case LabelText =>
      if Truthy(Raw(env.attrs, SwitchLabel)) then SwitchAttrValue(env, SwitchLabel)
      else SwitchAttrValue(env, SwitchIcon)
    case WrapperClass => SwitchAttrValue(env, SwitchWrapper)
    case HandleWidth => SwitchAttrValue(env, SwitchHandleWidth)
    case LabelWidth => SwitchAttrValue(env, SwitchLabelWidth)
    case Inverse => SwitchAttrValue(env, SwitchInverse)
  }

  /** What the construction bundle gives the options that are not plain
      resolver values: `state` is the initial on/off state, `readonly` is
      the strict reading of the attribute (the negation of its resolved
      value), `disabled` is the negated default-true reading of
      `switchActive`, and `labelText` is the label when one is set and
      otherwise the icon markup when an icon is set. */
  lemma InitialOptionValues(env: Env, state: bool, n: OptionName)
    ensures n == State ==> InitialOption(env, state, n) == Bool(state)
    ensures n == Readonly ==>
              InitialOption(env, state, n) == Bool(BooleanFromString(env, Raw(env.attrs, SwitchReadonly)))
    ensures n == Disabled ==>
              InitialOption(env, state, n) == Bool(!BooleanFromStringDefTrue(Raw(env.attrs, SwitchActive)))
    ensures n == LabelText && Truthy(Raw(env.attrs, SwitchLabel)) ==>
              InitialOption(env, state, n) == Raw(env.attrs, SwitchLabel)
    ensures n == LabelText && !Truthy(Raw(env.attrs, SwitchLabel)) ==>
              var r := InitialOption(env, state, n);
              (r.Str? <==> Truthy(Raw(env.attrs, SwitchIcon))) && (r.Str? || r == Undef)
  {
  }

  /** The option bundle the widget is constructed with. */
  function InitOptions(env: Env, state: bool): (o: Options)
    ensures o.state == state
  {
    Options(
      radioAllOff := InitialOption(env, state, RadioAllOff),
      readonly := InitialOption(env, state, Readonly),
      disabled := InitialOption(env, state, Disabled),
      state := state,
      onText := InitialOption(env, state, OnText),
      offText := InitialOption(env, state, OffText),
      onColor := InitialOption(env, state, OnColor),
      offColor := InitialOption(env, state, OffColor),
      animate := InitialOption(env, state, Animate),
      size := InitialOption(env, state, Size),
      labelText := InitialOption(env, state, LabelText),
      wrapperClass := InitialOption(env, state, WrapperClass),
      handleWidth := InitialOption(env, state, HandleWidth),
      labelWidth := InitialOption(env, state, LabelWidth),
      inverse := InitialOption(env, state, Inverse))
  }

  /** `initMaybe`: the first call constructs the widget with state
      `modelValue === trueValue` and writes the view value back (the model
      value itself for a radio, that boolean otherwise); later calls do
      nothing at all. */
  function InitMaybe(b: Binding, env: Env): (r: Binding)
    ensures r.isInit && r.radioListener == b.radioListener
    ensures b.isInit ==> r == b
    ensures !b.isInit ==>
              && |r.log| == |b.log| + 1
              && r.log[..|b.log|] == b.log
              && r.log[|b.log|] == Construct(InitOptions(env, b.ctrl.modelValue == TrueValue(env)))
    ensures !b.isInit && IsRadio(env.attrs) ==> r.writes == b.writes + [b.ctrl.modelValue]
    ensures !b.isInit && !IsRadio(env.attrs) ==>
              r.writes == b.writes + [Bool(b.ctrl.modelValue == TrueValue(env))]
    ensures !b.isInit ==> r.ctrl.viewValue == r.writes[|b.writes|]
    ensures !b.isInit && IsRadio(env.attrs) && b.radioListener ==> r.ctrl.modelValue == r.ctrl.viewValue
  {
    if b.isInit then b
    else
      var viewValue := b.ctrl.modelValue == TrueValue(env);
      var built := b.(isInit := true, log := b.log + [Construct(InitOptions(env, viewValue))]);
      if IsRadio(env.attrs) then SetViewValue(built, env, b.ctrl.modelValue)
      else SetViewValue(built, env, Bool(viewValue))
  }

  /** The model watch: initialise if needed, then, for a defined new value,
      set the widget's state to `newValue === trueValue` (with `skip` false). */
  function OnModelChange(b: Binding, env: Env, newValue: JsVal): (r: Binding)
    ensures r.isInit && r.radioListener == b.radioListener
    ensures r.writes == InitMaybe(b, env).writes && r.ctrl == InitMaybe(b, env).ctrl
    ensures newValue == Undef ==> r.log == InitMaybe(b, env).log
    ensures newValue != Undef ==>
              r.log == InitMaybe(b, env).log + [SetState(newValue == TrueValue(env), false)]
  {
    var ready := InitMaybe(b, env);
    if newValue != Undef then ready.(log := ready.log + [SetState(newValue == TrueValue(env), false)])
    else ready
  }

  /** An observer from the `bindings` table firing for attribute `a`:
      before initialisation nothing happens; afterwards the attribute's
      resolved value is pushed to its option, and nothing else changes.
      `switchActive` has no entry and is ignored here. */
  function OnAttrObserved(b: Binding, env: Env, a: SwitchAttr): (r: Binding)
    ensures a == SwitchActive || !b.isInit ==> r == b
    ensures a != SwitchActive && b.isInit ==>
              r.log == b.log + [SetOption(Bindings(a).value, SwitchAttrValue(env, a))]
    ensures r.isInit == b.isInit && r.radioListener == b.radioListener
    ensures r.ctrl == b.ctrl && r.writes == b.writes
  {
    match Bindings(a)
    case Some(option) => SetSwitchParamMaybe(b, env, option, a)
    case None => b
  }

  /** The `switchActive` observer: activation pushes `disabled` at once;
      deactivation is deferred to a timer (the `DeferredActivate` event),
      so nothing happens now. When the observed value is the attribute as it
      stands, an activation of an initialised switch pushes `disabled` false. */
  function OnActiveObserved(b: Binding, env: Env, newValue: JsVal): (r: Binding)
    ensures !BooleanFromStringDefTrue(newValue) ==> r == b
    ensures BooleanFromStringDefTrue(newValue) ==> r == SetActive(b, env)
    ensures b.isInit && BooleanFromStringDefTrue(newValue) && newValue == Raw(env.attrs, SwitchActive) ==>
              r.log == b.log + [SetOption(Disabled, Bool(false))]
    ensures r.isInit == b.isInit && r.ctrl == b.ctrl && r.writes == b.writes
  {
    if BooleanFromStringDefTrue(newValue) then SetActive(b, env) else b
  }

  /** The radio `change` handler. It acts only when model and view agree and
      the DOM's checked flag differs from the widget's state; then a checked
      radio writes the true value and an unchecked one clears the view value
      if it held the true value. */
  function OnRadioChange(b: Binding, env: Env, checked: bool, widgetState: bool): (r: Binding)
    ensures r.isInit == b.isInit && r.radioListener == b.radioListener && r.log == b.log
    ensures r.writes == b.writes || r.writes == b.writes + [r.ctrl.viewValue]
    ensures r.writes != b.writes <==>
              && b.ctrl.modelValue == b.ctrl.viewValue
              && checked != widgetState
              && (checked || b.ctrl.viewValue == TrueValue(env))
    ensures r.writes != b.writes ==> r.ctrl.viewValue == (if checked then TrueValue(env) else Undef)
    ensures r.writes == b.writes ==> r == b
  {
    if b.ctrl.modelValue == b.ctrl.viewValue && checked != widgetState then
      if checked then SetViewValue(b, env, TrueValue(env))
      else if TrueValue(env) == b.ctrl.viewValue then SetViewValue(b, env, Undef)
      else b
    else b
  }

  /** The checkbox `switchChange` handler: writes the DOM checked flag. */
  function OnSwitchChange(b: Binding, env: Env, checked: bool): (r: Binding)
    ensures r.writes == b.writes + [Bool(checked)] && r.ctrl.viewValue == Bool(checked)
    ensures r.isInit == b.isInit && r.radioListener == b.radioListener && r.log == b.log
  {
    SetViewValue(b, env, Bool(checked))
  }

  /** The `$destroy` hook: destroy the widget, unconditionally. */
  function OnDestroy(b: Binding): (r: Binding)
    ensures r.log == b.log + [Destroy]
    ensures r.isInit == b.isInit && r.ctrl == b.ctrl && r.writes == b.writes
    ensures r.radioListener == b.radioListener
  {
    b.(log := b.log + [Destroy])
  }

  /** Everything that can happen to a binding after link time. */
  datatype Event =
    | ModelChanged(newValue: JsVal)
    | AttrObserved(attr: SwitchAttr)
    | ActiveObserved(newValue: JsVal)
    | DeferredActivate
    | ViewChanged(checked: bool, widgetState: bool)
    | ControllerSet(ctrl: Controller)
    | ScopeDestroyed

  /** One event, seen in the environment of the moment. A `ControllerSet` is
      the application or the framework changing the controller's values. */
  function Step(b: Binding, env: Env, e: Event): Binding {
    match e
    case ModelChanged(v) => OnModelChange(b, env, v)
    case AttrObserved(a) => OnAttrObserved(b, env, a)
    case ActiveObserved(v) => OnActiveObserved(b, env, v)
    case DeferredActivate => SetActive(b, env)
    case ViewChanged(checked, widgetState) =>
      if b.radioListener then OnRadioChange(b, env, checked, widgetState)
      else OnSwitchChange(b, env, checked)
    case ControllerSet(c) => b.(ctrl := c)
    case ScopeDestroyed => OnDestroy(b)
  }

  datatype Tick = Tick(env: Env, event: Event)

  /** Once open, the gate stays open, and no step constructs again. */
  lemma StepKeepsGate(b: Binding, env: Env, e: Event)
    ensures Step(b, env, e).radioListener == b.radioListener
    ensures b.isInit ==> Step(b, env, e).isInit
    ensures b.isInit ==> Constructs(Step(b, env, e).log) == Constructs(b.log)
  {
    var r := Step(b, env, e);
    if b.isInit {
      match e
      case ModelChanged(v) =>
        if v != Undef {
          ConstructsAppend(b.log, SetState(v == TrueValue(env), false));
        }
      case AttrObserved(a) =>
        if Bindings(a).Some? {
          ConstructsAppend(b.log, SetOption(Bindings(a).value, SwitchAttrValue(env, a)));
        }
      case ActiveObserved(v) =>
        ConstructsAppend(b.log, SetOption(Disabled, SwitchAttrValue(env, SwitchActive)));
      case DeferredActivate =>
        ConstructsAppend(b.log, SetOption(Disabled, SwitchAttrValue(env, SwitchActive)));
      case ViewChanged(_, _) =>
      case ControllerSet(_) =>
      case ScopeDestroyed =>
        ConstructsAppend(b.log, Destroy);
    }
  }

  /** A run of events. Once the gate is open it stays open and the widget
      is never constructed again. */
  function Run(b: Binding, ticks: seq<Tick>): (r: Binding)
    ensures r.radioListener == b.radioListener
    ensures b.isInit ==> r.isInit && Constructs(r.log) == Constructs(b.log)
    decreases |ticks|
  {
    if |ticks| == 0 then b
    else
      StepKeepsGate(b, ticks[0].env, ticks[0].event);
      Run(Step(b, ticks[0].env, ticks[0].event), ticks[1..])
  }
}

=== FILE: js_values.dfy ===
/** JavaScript values as the directive sees them, with JavaScript's loose
    truthiness, the `||` operator and string conversion made explicit. */
module JsValues {

  /** A value that may be missing: used for the widget's last reported
      state and for the bindings-table lookup. */
  datatype Option<+T> = None | Some(value: T)

  /** A JavaScript value. Numbers are integers (NaN and -0 are not modelled);
      an object is known only by its reference, so `===` on two objects
      compares their `id`s and `===` on any two values is datatype equality. */
  datatype JsVal =
    | Undef
    | Null
    | Bool(b: bool)
    | Num(n: int)
    | Str(s: string)
    | Obj(id: nat)

  /** JavaScript's ToBoolean: what `if (v)`, `v ? a : b` and `!v` test. */
  predicate Truthy(v: JsVal) {
    match v
    case Undef => false
    case Null => false
    case Bool(b) => b
    case Num(n) => n != 0
    case Str(s) => s != ""
    case Obj(_) => true
  }

  /** The falsy values, listed one by one. */
  const Falsy: set<JsVal> := {Undef, Null, Bool(false), Num(0), Str("")}

  /** Truthiness agrees with the list of falsy values. */
  lemma FalsyExactly(v: JsVal)
    ensures !Truthy(v) <==> v in Falsy
  {
  }

  /** `a || b`: yields `a` when it is truthy and `b` otherwise, so it is
      truthy iff either operand is. */
  function Or(a: JsVal, b: JsVal): (r: JsVal)
    ensures r == a || r == b
    ensures Truthy(r) <==> Truthy(a) || Truthy(b)
    ensures Truthy(a) ==> r == a
    ensures !Truthy(a) ==> r == b
  {
    if Truthy(a) then a else b
  }

  /** `!v`: the boolean negation of the value's truthiness. */
  function Not(v: JsVal): (r: JsVal)
    ensures r.Bool?
    ensures Truthy(r) <==> !Truthy(v)
  {
    Bool(!Truthy(v))
  }

  function DigitChar(d: nat): (c: char)
    requires d < 10
    ensures '0' <= c <= '9'
  {
    "0123456789"[d]
  }

  /** Decimal notation of a natural number, most significant digit first.
      AngularJS hands attributes over as strings, but the model's attribute
      map holds any value, so the icon markup needs JavaScript's string
      conversion of a number as well. */
  function NatToString(n: nat): (s: string)
    ensures |s| > 0
    ensures forall i :: 0 <= i < |s| ==> '0' <= s[i] <= '9'
    decreases n
  {
    if n < 10 then [DigitChar(n)] else NatToString(n / 10) + [DigitChar(n % 10)]
  }

  /** JavaScript's ToString, as string concatenation applies it. Every object
      is taken to use the default `Object.prototype.toString`. */
  function ToJsString(v: JsVal): (s: string)
    ensures v.Str? ==> s == v.s
  {
    match v
    case Undef => "undefined"
    case Null => "null"
    case Bool(b) => if b then "true" else "false"
    case Num(n) => if n < 0 then "-" + NatToString(-n) else NatToString(n)
    case Str(s) => s
    case Obj(_) => "[object Object]"
  }
}

=== FILE: properties.dfy ===
/** What the binding promises across calls: the initialisation gate, the
    agreement between the construction bundle and later option pushes, and
    the round trips between the view handlers and the model watch. */
module Properties {
  import opened JsValues
  import opened Attributes
  import opened Widget
  import opened Directive

  // ---------------------------------------------------------------------
  // The initialisation gate
  // ---------------------------------------------------------------------

  /** Every option or state push in the log comes after the one construction. */
  predicate PushesFollowConstruct(log: seq<Call>) {
    forall i :: 0 <= i < |log| && IsPush(log[i]) ==> Constructs(log[..i]) == 1
  }

  /** The gate is open exactly when the widget has been constructed, it has
      been constructed at most once, and nothing was pushed before that. */
  predicate Inv(b: Binding) {
    && Constructs(b.log) == (if b.isInit then 1 else 0)
    && PushesFollowConstruct(b.log)
  }

  lemma AppendKeepsOrder(log: seq<Call>, c: Call)
    requires PushesFollowConstruct(log)
    requires IsPush(c) ==> Constructs(log) == 1
    ensures PushesFollowConstruct(log + [c])
  {
    var log' := log + [c];
    forall i | 0 <= i < |log'| && IsPush(log'[i])
      ensures Constructs(log'[..i]) == 1
    {
      if i < |log| {
        assert log'[..i] == log[..i];
      } else {
        assert log'[..i] == log;
      }
    }
  }

  /** Appending one call keeps the invariant when a construction opens a
      closed gate and a push happens only behind an open one. */
  lemma AppendKeepsInv(b: Binding, r: Binding, c: Call)
    requires Inv(b)
    requires r.log == b.log + [c]
    requires c.Construct? ==> !b.isInit
    requires IsPush(c) ==> b.isInit
    requires r.isInit == (b.isInit || c.Construct?)
    ensures Inv(r)
  {
    ConstructsAppend(b.log, c);
    AppendKeepsOrder(b.log, c);
  }

  lemma LinkInv(attrs: Attrs, ctrl: Controller)
    ensures Inv(Link(attrs, ctrl))
  {
  }

  /** `initMaybe` keeps the invariant: a first call constructs, a later one
      changes nothing. */
  lemma InitMaybeKeepsInv(b: Binding, env: Env)
    requires Inv(b)
    ensures Inv(InitMaybe(b, env))
  {
    if !b.isInit {
      var r := InitMaybe(b, env);
      var c := r.log[|b.log|];
      assert r.log == b.log + [c];
      AppendKeepsInv(b, r, c);
    }
  }

  lemma StepKeepsInv(b: Binding, env: Env, e: Event)
    requires Inv(b)
    ensures Inv(Step(b, env, e))
  {
    var r := Step(b, env, e);
    match e
    case ModelChanged(v) =>
      var ready := InitMaybe(b, env);
      InitMaybeKeepsInv(b, env);
      if v != Undef {
        AppendKeepsInv(ready, r, SetState(v == TrueValue(env), false));
      }
    case AttrObserved(a) =>
      if Bindings(a).Some? && b.isInit {
        AppendKeepsInv(b, r, SetOption(Bindings(a).value, SwitchAttrValue(env, a)));
      }
    case ActiveObserved(v) =>
      if BooleanFromStringDefTrue(v) && b.isInit {
        AppendKeepsInv(b, r, SetOption(Disabled, SwitchAttrValue(env, SwitchActive)));
      }
    case DeferredActivate =>
      if b.isInit {
        AppendKeepsInv(b, r, SetOption(Disabled, SwitchAttrValue(env, SwitchActive)));
      }
    case ViewChanged(_, _) =>
    case ControllerSet(_) =>
    case ScopeDestroyed =>
      AppendKeepsInv(b, r, Destroy);
  }

  /** The invariant holds after any run of events. */
  lemma {:induction false} RunKeepsInv(b: Binding, ticks: seq<Tick>)
    requires Inv(b)
    ensures Inv(Run(b, ticks))
    decreases |ticks|
  {
    if |ticks| > 0 {
      StepKeepsInv(b, ticks[0].env, ticks[0].event);
      RunKeepsInv(Step(b, ticks[0].env, ticks[0].event), ticks[1..]);
    }
  }

  /** Only the model watch opens the gate. */
  lemma StepOpensGate(b: Binding, env: Env, e: Event)
    ensures Step(b, env, e).isInit <==> b.isInit || e.ModelChanged?
  {
  }

  /** After any run, the gate is open exactly when some model-watch
      notification has fired (or it was open to begin with). */
  lemma {:induction false} RunOpensGate(b: Binding, ticks: seq<Tick>)
    ensures Run(b, ticks).isInit <==>
              b.isInit || exists i :: 0 <= i < |ticks| && ticks[i].event.ModelChanged?
    decreases |ticks|
  {
    if |ticks| > 0 {
      var next := Step(b, ticks[0].env, ticks[0].event);
      StepOpensGate(b, ticks[0].env, ticks[0].event);
      RunOpensGate(next, ticks[1..]);
      if exists i :: 0 <= i < |ticks| && ticks[i].event.ModelChanged? {
        var i :| 0 <= i < |ticks| && ticks[i].event.ModelChanged?;
        if i > 0 {
          assert ticks[1..][i - 1] == ticks[i];
        }
      }
      if exists j :: 0 <= j < |ticks[1..]| && ticks[1..][j].event.ModelChanged? {
        var j :| 0 <= j < |ticks[1..]| && ticks[1..][j].event.ModelChanged?;
        assert ticks[j + 1] == ticks[1..][j];
      }
    }
  }

  /** Construct exactly once: from link time, whatever events arrive, the
      widget is constructed once if the model watch ever fired and never
      otherwise, and no option or state push precedes the construction. */
  lemma ConstructedOnce(attrs: Attrs, ctrl: Controller, ticks: seq<Tick>)
    ensures Constructs(Run(Link(attrs, ctrl), ticks).log) ==
              if exists i :: 0 <= i < |ticks| && ticks[i].event.ModelChanged? then 1 else 0
    ensures PushesFollowConstruct(Run(Link(attrs, ctrl), ticks).log)
  {
    LinkInv(attrs, ctrl);
    RunKeepsInv(Link(attrs, ctrl), ticks);
    RunOpensGate(Link(attrs, ctrl), ticks);
  }

  /** A second `initMaybe` is a no-op, whatever the environment. */
  lemma InitMaybeIdempotent(b: Binding, env1: Env, env2: Env)
    ensures InitMaybe(InitMaybe(b, env1), env2) == InitMaybe(b, env1)
  {
  }

  // ---------------------------------------------------------------------
  // The construction bundle versus later option pushes
  // ---------------------------------------------------------------------

  /** For every attribute in the `bindings` table other than readonly, label
      and icon, the observed push sends exactly the value the widget was
      constructed with; `setActive` likewise agrees with `disabled`. */
  lemma ObservedPushMatchesInit(env: Env, state: bool, a: SwitchAttr)
    requires a != SwitchReadonly && a != SwitchLabel && a != SwitchIcon
    ensures a != SwitchActive ==> InitialOption(env, state, Bindings(a).value) == SwitchAttrValue(env, a)
    ensures InitialOption(env, state, Disabled) == SwitchAttrValue(env, SwitchActive)
  {
  }

  /** The readonly quirk: a readonly observation pushes to the `readonly`
      option, and the value it pushes and the construction bundle's
      `readonly` are opposite booleans, for every environment. */
  lemma ReadonlyPushContradictsInit(b: Binding, env: Env, state: bool)
    ensures b.isInit ==>
              OnAttrObserved(b, env, SwitchReadonly).log
              == b.log + [SetOption(Readonly, SwitchAttrValue(env, SwitchReadonly))]
    ensures InitialOption(env, state, Readonly) == Bool(BooleanFromString(env, Raw(env.attrs, SwitchReadonly)))
    ensures SwitchAttrValue(env, SwitchReadonly) == Bool(!BooleanFromString(env, Raw(env.attrs, SwitchReadonly)))
    ensures InitialOption(env, state, Readonly) != SwitchAttrValue(env, SwitchReadonly)
  {
  }

  /** Label and icon observations both push to `labelText`. A label
      observation repeats the constructed `labelText` exactly when a label
      is set; an icon observation repeats it whenever no label is. */
  lemma LabelPushMatchesInit(b: Binding, env: Env, state: bool)
    ensures b.isInit ==>
              OnAttrObserved(b, env, SwitchLabel).log
              == b.log + [SetOption(LabelText, SwitchAttrValue(env, SwitchLabel))]
    ensures b.isInit ==>
              OnAttrObserved(b, env, SwitchIcon).log
              == b.log + [SetOption(LabelText, SwitchAttrValue(env, SwitchIcon))]
    ensures InitialOption(env, state, LabelText) == SwitchAttrValue(env, SwitchLabel)
            <==> Truthy(Raw(env.attrs, SwitchLabel))
    ensures !Truthy(Raw(env.attrs, SwitchLabel)) ==>
              InitialOption(env, state, LabelText) == SwitchAttrValue(env, SwitchIcon)
  {
    var icon := SwitchAttrValue(env, SwitchIcon);
    if icon != Undef {
      var m := IconMarkup(ToJsString(Raw(env.attrs, SwitchIcon)));
      assert m[0] == '<';
      assert icon != Str("&nbsp;");
    }
  }

  // ---------------------------------------------------------------------
  // Initial state
  // ---------------------------------------------------------------------

  /** The first `initMaybe` after link time makes exactly one construction
      and exactly one view-value write. */
  lemma FirstInitMaybe(attrs: Attrs, ctrl: Controller, env: Env)
    ensures var ready := InitMaybe(Link(attrs, ctrl), env);
            && ready.log == [Construct(InitOptions(env, ctrl.modelValue == TrueValue(env)))]
            && ready.writes == [if IsRadio(env.attrs) then ctrl.modelValue
                                else Bool(ctrl.modelValue == TrueValue(env))]
  {
    var ready := InitMaybe(Link(attrs, ctrl), env);
    assert ready.log == [ready.log[0]];
  }

  /** The first model-watch notification after link time constructs the
      widget showing `modelValue === trueValue` (or `newValue === trueValue`
      when it is defined) and writes the view value back once. */
  lemma FirstWatchInitialises(attrs: Attrs, ctrl: Controller, env: Env, newValue: JsVal)
    ensures Constructs(OnModelChange(Link(attrs, ctrl), env, newValue).log) == 1
    ensures ReportedState(OnModelChange(Link(attrs, ctrl), env, newValue).log) ==
              Some(if newValue == Undef then ctrl.modelValue == TrueValue(env)
                   else newValue == TrueValue(env))
    ensures OnModelChange(Link(attrs, ctrl), env, newValue).writes ==
              [if IsRadio(env.attrs) then ctrl.modelValue else Bool(ctrl.modelValue == TrueValue(env))]
  {
    FirstInitMaybe(attrs, ctrl, env);
    var log := OnModelChange(Link(attrs, ctrl), env, newValue).log;
    var built := Construct(InitOptions(env, ctrl.modelValue == TrueValue(env)));
    if newValue == Undef {
      assert log == [built];
      assert log == [] + [built];
      ConstructsAppend([], built);
      ReportedStateAppend([], built);
    } else {
      var push := SetState(newValue == TrueValue(env), false);
      assert log == [built] + [push];
      assert [built] == [] + [built];
      ConstructsAppend([], built);
      ConstructsAppend([built], push);
      ReportedStateAppend([built], push);
    }
  }

  /** A checkbox whose model holds the string its `ngTrueValue` evaluates
      to starts switched on; a radio whose `value` equals the model starts on. */
  lemma InitialStateExamples(attrs: Attrs, ctrl: Controller, env: Env)
    ensures !IsRadio(env.attrs) && Evaluate(env, env.attrs.ngTrueValue).Str?
            && ctrl.modelValue == Evaluate(env, env.attrs.ngTrueValue) ==>
              ReportedState(OnModelChange(Link(attrs, ctrl), env, ctrl.modelValue).log) == Some(true)
    ensures IsRadio(env.attrs) && env.attrs.value == Str("x") && ctrl.modelValue == Str("x") ==>
              ReportedState(OnModelChange(Link(attrs, ctrl), env, ctrl.modelValue).log) == Some(true)
  {
    FirstWatchInitialises(attrs, ctrl, env, ctrl.modelValue);
  }

  /** Each later model-watch notification with a defined value leaves the
      widget showing whether that value is the true value. */
  lemma WatchSetsState(b: Binding, env: Env, newValue: JsVal)
    requires b.isInit && newValue != Undef
    ensures ReportedState(OnModelChange(b, env, newValue).log) == Some(newValue == TrueValue(env))
    ensures Constructs(OnModelChange(b, env, newValue).log) == Constructs(b.log)
  {
    ReportedStateAppend(b.log, SetState(newValue == TrueValue(env), false));
    ConstructsAppend(b.log, SetState(newValue == TrueValue(env), false));
  }

  // ---------------------------------------------------------------------
  // View handlers and the model watch
  // ---------------------------------------------------------------------

  /** Checkbox round trip: when `ngTrueValue` is absent, a string, or
      evaluates to true, the framework's checkbox parser turns a checked box
      into the directive's true value, so flipping the switch and then seeing
      the resulting model value in the watch leaves the last state pushed to
      the widget equal to the flag the DOM reported. */
  lemma CheckboxRoundTrip(b: Binding, env: Env, checked: bool, widgetState: bool)
    requires b.isInit && !b.radioListener && !IsRadio(env.attrs)
    requires env.attrs.ngTrueValue == Undef
             || Evaluate(env, env.attrs.ngTrueValue).Str?
             || Evaluate(env, env.attrs.ngTrueValue) == Bool(true)
    ensures var clicked := Step(b, env, ViewChanged(checked, widgetState));
            && clicked.writes == b.writes + [Bool(checked)]
            && ReportedState(Step(clicked, env, ModelChanged(clicked.ctrl.modelValue)).log) == Some(checked)
  {
    var clicked := Step(b, env, ViewChanged(checked, widgetState));
    CheckboxParseMatchesTrueValue(env);
    WatchSetsState(clicked, env, clicked.ctrl.modelValue);
  }

  /** The other side of the round trip: with a `ngTrueValue` that evaluates
      to a defined value that is neither a string nor true (for instance
      `ng-true-value="1"`), the checked box parses to that value while the
      directive's true value is `true`, so turning the switch on ends with
      the widget told to show off. */
  lemma NonStringTrueValueTurnsOff(b: Binding, env: Env, widgetState: bool)
    requires b.isInit && !b.radioListener && !IsRadio(env.attrs)
    requires env.attrs.ngTrueValue != Undef
    requires var t := Evaluate(env, env.attrs.ngTrueValue); t != Undef && !t.Str? && t != Bool(true)
    ensures var clicked := Step(b, env, ViewChanged(true, widgetState));
            && clicked.ctrl.modelValue == Evaluate(env, env.attrs.ngTrueValue)
            && ReportedState(Step(clicked, env, ModelChanged(clicked.ctrl.modelValue)).log) == Some(false)
  {
    var clicked := Step(b, env, ViewChanged(true, widgetState));
    WatchSetsState(clicked, env, clicked.ctrl.modelValue);
  }

  /** With such a `ngTrueValue`, a model that already holds it is read as off
      when the widget is first built: the construction shows off and the
      written-back `false` replaces the model value. */
  lemma NonStringTrueValueResetsModel(attrs: Attrs, ctrl: Controller, env: Env)
    requires !IsRadio(attrs) && !IsRadio(env.attrs)
    requires env.attrs.ngTrueValue != Undef
    requires ctrl.modelValue == Evaluate(env, env.attrs.ngTrueValue)
    requires ctrl.modelValue != Undef && !ctrl.modelValue.Str? && ctrl.modelValue != Bool(true)
    ensures var r := InitMaybe(Link(attrs, ctrl), env);
            && r.log == [Construct(InitOptions(env, false))]
            && r.writes == [Bool(false)]
            && r.ctrl.modelValue == Bool(false)
  {
  }

  /** Radio round trip: selecting the radio writes the true value, which a
      radio's parser keeps as the model value, and the watch then shows the
      switch on. */
  lemma RadioSelectRoundTrip(b: Binding, env: Env)
    requires b.isInit && b.radioListener && IsRadio(env.attrs)
    requires b.ctrl.modelValue == b.ctrl.viewValue
    ensures var clicked := Step(b, env, ViewChanged(true, false));
            && clicked.writes == b.writes + [TrueValue(env)]
            && ReportedState(Step(clicked, env, ModelChanged(clicked.ctrl.modelValue)).log) == Some(true)
  {
    var clicked := Step(b, env, ViewChanged(true, false));
    WatchSetsState(clicked, env, clicked.ctrl.modelValue);
  }

  /** Radio deselection clears the view value exactly when it held the true
      value; otherwise the binding is untouched. The cleared model then
      causes no state push at all. */
  lemma RadioDeselect(b: Binding, env: Env)
    requires b.radioListener && b.ctrl.modelValue == b.ctrl.viewValue
    ensures var r := Step(b, env, ViewChanged(false, true));
            && (r.ctrl.viewValue == Undef && r.writes == b.writes + [Undef]
                <==> b.ctrl.viewValue == TrueValue(env))
            && (b.ctrl.viewValue != TrueValue(env) ==> r == b)
            && (b.isInit && b.ctrl.viewValue == TrueValue(env) ==>
                  Step(r, env, ModelChanged(r.ctrl.modelValue)).log == r.log)
  {
  }

  /** Radio events the filter discards: model and view out of step, or the
      DOM flag already matching the widget. */
  lemma RadioFilterDiscards(b: Binding, env: Env, checked: bool, widgetState: bool)
    requires b.radioListener
    requires b.ctrl.modelValue != b.ctrl.viewValue || checked == widgetState
    ensures Step(b, env, ViewChanged(checked, widgetState)) == b
  {
  }

  // ---------------------------------------------------------------------
  // The switchActive observer and its timer
  // ---------------------------------------------------------------------

  /** The deferred `setActive` re-reads `switchActive` when the timer fires:
      it disables the switch exactly when the attribute then reads inactive,
      and enables it otherwise. */
  lemma DeferredActivateRereads(b: Binding, env: Env)
    requires b.isInit
    ensures Step(b, env, DeferredActivate).log == b.log + [SetOption(Disabled, Bool(true))]
            <==> !BooleanFromStringDefTrue(Raw(env.attrs, SwitchActive))
    ensures Step(b, env, DeferredActivate).log == b.log + [SetOption(Disabled, Bool(false))]
            <==> BooleanFromStringDefTrue(Raw(env.attrs, SwitchActive))
  {
    var r := Step(b, env, DeferredActivate);
    var pushed := SetOption(Disabled, Bool(!BooleanFromStringDefTrue(Raw(env.attrs, SwitchActive))));
    assert r.log == b.log + [pushed];
    assert r.log[|b.log|] == pushed;
  }

  /** A deactivation overtaken by a re-activation before its timer fires is
      lost: both the immediate push and the late one enable the switch. */
  lemma OvertakenDeactivationIsLost(b: Binding, env1: Env, env2: Env)
    requires b.isInit
    requires !BooleanFromStringDefTrue(Raw(env1.attrs, SwitchActive))
    requires BooleanFromStringDefTrue(Raw(env2.attrs, SwitchActive))
    ensures Run(b, [Tick(env1, ActiveObserved(Raw(env1.attrs, SwitchActive))),
                    Tick(env2, ActiveObserved(Raw(env2.attrs, SwitchActive))),
                    Tick(env2, DeferredActivate)]).log
            == b.log + [SetOption(Disabled, Bool(false)), SetOption(Disabled, Bool(false))]
  {
    var ticks := [Tick(env1, ActiveObserved(Raw(env1.attrs, SwitchActive))),
                  Tick(env2, ActiveObserved(Raw(env2.attrs, SwitchActive))),
                  Tick(env2, DeferredActivate)];
    var enabled := SetOption(Disabled, Bool(false));
    var b1 := Step(b, env1, ticks[0].event);
    assert b1 == b;
    var b2 := Step(b1, env2, ticks[1].event);
    assert b2.log == b.log + [enabled];
    var b3 := Step(b2, env2, ticks[2].event);
    assert b3.log == b.log + [enabled] + [enabled];
    assert ticks[1..][1..][1..] == [];
    assert Run(b, ticks) == Run(b1, ticks[1..]) == Run(b2, ticks[1..][1..]) == Run(b3, []);
  }

  // ---------------------------------------------------------------------
  // Teardown
  // ---------------------------------------------------------------------

  /** Destruction does not close the gate, and `$timeout` callbacks outlive
      the scope: a deferred `setActive` whose timer fires after `$destroy`
      still pushes to the destroyed widget. The second clause is a property
      of the model's event set only: `Run` accepts any event after
      `ScopeDestroyed`, whereas AngularJS runs no watcher of a destroyed
      scope, so a model change cannot really arrive then. */
  lemma PushAfterDestroy(b: Binding, env: Env, v: JsVal)
    requires b.isInit && v != Undef
    ensures var gone := Step(b, env, ScopeDestroyed);
            && gone.log == b.log + [Destroy]
            && Step(gone, env, DeferredActivate).log ==
                 b.log + [Destroy, SetOption(Disabled, SwitchAttrValue(env, SwitchActive))]
            && Step(gone, env, ModelChanged(v)).log ==
                 b.log + [Destroy, SetState(v == TrueValue(env), false)]
  {
  }
}

=== FILE: widget.dfy ===
/** The toggle-switch widget, known only through the calls the directive
    makes on it: the widget is the log of those calls. */
module Widget {
  import opened JsValues

  /** The widget options the directive sets. */
  datatype OptionName =
    | RadioAllOff
    | Readonly
    | Disabled
    | State
    | OnText
    | OffText
    | OnColor
    | OffColor
    | Animate
    | Size
    | LabelText
    | WrapperClass
    | HandleWidth
    | LabelWidth
    | Inverse

  /** The option bundle handed to the widget when it is constructed. */
  datatype Options = Options(
    radioAllOff: JsVal,
    readonly: JsVal,
    disabled: JsVal,
    state: bool,
    onText: JsVal,
    offText: JsVal,
    onColor: JsVal,
    offColor: JsVal,
    animate: JsVal,
    size: JsVal,
    labelText: JsVal,
    wrapperClass: JsVal,
    handleWidth: JsVal,
    labelWidth: JsVal,
    inverse: JsVal)

  /** One call of `element.bootstrapSwitch(...)`. */
  datatype Call =
    | Construct(options: Options)
    | SetOption(name: OptionName, value: JsVal)
    | SetState(state: bool, skip: bool)
    | Destroy

  /** A call that changes an option or the state of an existing widget. */
  predicate IsPush(c: Call) {
    c.SetOption? || c.SetState?
  }

  /** The number of constructions in a call log. */
  function Constructs(log: seq<Call>): nat
    decreases |log|
  {
    if |log| == 0 then 0
    else Constructs(log[..|log| - 1]) + (if log[|log| - 1].Construct? then 1 else 0)
  }

  lemma ConstructsAppend(log: seq<Call>, c: Call)
    ensures Constructs(log + [c]) == Constructs(log) + (if c.Construct? then 1 else 0)
  {
    assert (log + [c])[..|log|] == log;
  }

  /** The on/off state the widget shows after the calls in `log`: the latest
      construction or state change decides it, other options leave it alone,
      and a destroyed or never-constructed widget shows none. */
  function ReportedState(log: seq<Call>): Option<bool>
    decreases |log|
  {
    if |log| == 0 then None
    else
      match log[|log| - 1]
      case Construct(o) => Some(o.state)
      case SetState(s, _) => Some(s)
      case SetOption(n, v) =>
        if n == State then Some(Truthy(v)) else ReportedState(log[..|log| - 1])
      case Destroy => None
  }

  /** Appending a state change decides the reported state; appending another
      option leaves it as it was. */
  lemma ReportedStateAppend(log: seq<Call>, c: Call)
    ensures c.SetState? ==> ReportedState(log + [c]) == Some(c.state)
    ensures c.Construct? ==> ReportedState(log + [c]) == Some(c.options.state)
    ensures c.SetOption? && c.name != State ==> ReportedState(log + [c]) == ReportedState(log)
    ensures c.Destroy? ==> ReportedState(log + [c]) == None
  {
    assert (log + [c])[..|log|] == log;
  }
}
